=== FILE: README.md ===
# Acoustician: a verified model of the ray-acoustics core

Acoustician is a small ray-acoustics toy. A sound source emits a pulse of
eleven "balls" (ray particles) of one frequency band. The balls fly across a
500 x 500 window, bounce off its four edges and off interior planar or circular
walls, and lose energy at every bounce. A ball's energy is its RGB colour: each
lit channel loses `int(rate * 255)`, where `rate` is the wall's absorption
coefficient for the ball's band, and a ball that reaches black is removed.

This project models that core in Dafny over exact reals and proves its
contracts. The modules follow the program's structure:

- `Results`: the error outcomes of lookups and checks.
- `Vectors`: 2-D vectors and specular reflection.
- `Absorption`: the material presets, the band lookup and the manual-entry
  check.
- `Particles`: colours, the truncating absorption step and its repetition.
- `Walls`: the planar wall's implicit line, its orientation toward the source,
  and `Wall.__init__`.
- `Sources`: the source's angle parameters and the eleven-ray pulse.
- `Motion`: one ball's update (move, four edge checks, interior walls).
- `Simulation`: the scene, the tick with in-loop removal, `setup`,
  `set_edge_abs`, emitting a pulse and adding a wall.

One absorption with coefficient 0.07 removes 17, not 18: `int()` truncates
0.07 * 255 = 17.85 (`Particles.RemovalTruncates`).

The retirement check compares `ball.color` with the list `[0,0,0]`, but a new
ball's colour is a tuple. The two cannot be equal before the first absorption.
This makes no difference, because no initial colour is black
(`Particles.InitialColor`).

## Model

| member | source | states |
|---|---|---|
| Absorption.BandIndex | acoustician.py:29-30 | the index of a band in the list 125..4000 Hz, which holds that band |
| Absorption.SetAbsorb | acoustician.py:15-25 | defined exactly on keys 0-4, each giving six coefficients in [0, 1]; any other key fails with the KeyError outcome |
| Absorption.MenuMaterial | acoustician.py:73-79 | menu choice `n` succeeds exactly for 1-5 and yields a valid profile; other choices fail |
| Absorption.CurrentAbs | acoustician.py:28-31 | the entry at the band's position; an unknown frequency fails, and so does a list too short for that position |
| Absorption.CurrentAbsInRange | acoustician.py:28-31 | a coefficient read from a valid profile exists and lies in [0, 1] |
| Absorption.ManualEntry | acoustician.py:48-62 | accepted exactly when there are six values, none above 1.0; the accepted profile is the input; a wrong count fails as malformed |
| Absorption.AnyAboveOne | acoustician.py:53-57 | true exactly when some value from position `i` on exceeds 1.0 |
| Absorption.ManualEntryAcceptsNegative | acoustician.py:53-57 | the entry check accepts a profile with a negative coefficient, which is not a valid profile |
| Absorption.CheckedEntry | acoustician.py:48-62 | the corrected check accepts exactly the valid profiles, returns them unchanged, and rejects everything the original rejects |
| Particles.InitialColor | acoustician.py:124-134 | defined exactly on the six bands; each colour is 8-bit and not black; any other frequency fails |
| Particles.Trunc | acoustician.py:351 | Python's `int()` on a real: rounds toward zero, within one of the argument on the correct side |
| Particles.AbsorbChannel | acoustician.py:350-353 | for a non-negative channel and removal the result lies between 0 and the channel, so absorption never brightens; the channel ends at 0 exactly when it was unlit or the removal reaches it; otherwise it has lost exactly `k` |
| Particles.AbsColor | acoustician.py:346-354 | channels at 0 stay 0 whatever the rate; every lit channel becomes `max(0, ch - int(rate*255))` |
| Particles.RemovalInRange | acoustician.py:351 | a coefficient in [0, 1] removes between 0 and 255 |
| Particles.RemovalTruncates | acoustician.py:351 | coefficient 0.07 removes 17, not 18: truncation, not rounding |
| Particles.AbsColorDecays | acoustician.py:346-354 | for a rate in [0, 1] and an 8-bit colour, the result is 8-bit and no channel grows |
| Particles.AbsColorNoRemoval | acoustician.py:350-353 | a rate with `int(rate*255) = 0` leaves the colour unchanged |
| Particles.AbsColorFullAbsorption | acoustician.py:350-353 | rate 1.0 turns every 8-bit colour black |
| Particles.AbsColorNegativeBrightens | acoustician.py:351-353 | rate -0.5 raises a lit red channel from 255 to 382, outside the 8-bit range |
| Particles.AbsorbTimesBound | acoustician.py:346-354 | after `n` absorptions that each remove `k >= 0`, every channel is at most `max(0, start - n*k)` and stays 8-bit |
| Particles.AbsorbTimesExtinguishes | acoustician.py:346-354 | a rate that removes at least 1 turns any 8-bit colour black within 255 absorptions |
| Vectors.Reflect | acoustician.py:403-406 | `v - 2(u.v)u` keeps the tangential component; for a unit normal it negates the normal component and keeps the squared speed |
| Vectors.ReflectInvolution | acoustician.py:403-406 | reflecting twice off the same unit normal restores the velocity |
| Vectors.ReflectHeadOn | acoustician.py:403-406 | a velocity along a unit normal is sent straight back |
| Walls.DenomNonZero | acoustician.py:158-167 | the denominator `mNorm + m` is never zero, for sloped and horizontal segments alike |
| Walls.OrientationCorrect | acoustician.py:145-179 | the sign flip happens exactly when the source is strictly on the negative side of the raw line (for a vertical wall: on or behind it); both endpoints lie on the raw line |
| Walls.EndpointsOnRawLine | acoustician.py:171-173 | both segment endpoints satisfy `a*x + b*y = c` for the raw coefficients |
| Walls.HorizontalSign | acoustician.py:160-170 | with the horizontal sentinel, the source vector's y-component is still exactly the source's signed height above the wall |
| Walls.FootSign | acoustician.py:166-170 | for a sloped segment, the source vector's y-component is negative exactly when the source is on the negative side of the raw line |
| Walls.OrientedLine | acoustician.py:145-180 | the oriented line has the source on its non-negative side, passes through both endpoints, and is the raw line or its negation |
| Walls.OrientedLineCoefficients | acoustician.py:152-179 | a vertical wall gets `(+-1, 0, +-x0)`, any other wall `+-(-dy/dx, 1, a*x0 + y0)` |
| Walls.NormalNonZero | acoustician.py:183 | the oriented normal's squared length is at least 1, so its square root is positive |
| Walls.UnitNormal | acoustician.py:183-191 | dividing the normal by its length `d` gives a unit vector |
| Walls.UnitOf | acoustician.py:187-191 | the stored `unit` is a unit vector equal to `normal / d` |
| Walls.MakeWall | acoustician.py:137-191 | the constructor keeps the endpoints, profile and `d`, stores the oriented line, has the source on the non-negative side and both endpoints on the line, and stores a unit normal |
| Sources.MakeSource | acoustician.py:216-221 | succeeds exactly when the two angles differ; stores the position, a non-zero `range` and the start angle `a0*pi/180` |
| Sources.RayAngleClosedForm | acoustician.py:341-342 | ray `i` leaves at `(a0 + i*(a1 - a0)/10) * pi/180` |
| Sources.PulseEndpoints | acoustician.py:337-342 | ray 0 leaves at `a0` and ray 10 at `a1`, in equal steps of `(a1 - a0)/10` degrees |
| Sources.MakeBalls | acoustician.py:336-343 | succeeds exactly for a known band; keeps the existing balls and appends eleven at the source with that band, its initial colour and the heading of ray `i` |
| Motion.WallRate | acoustician.py:372 | succeeds exactly when wall `k` exists, the frequency is a band and the wall's profile reaches that band's position, and then yields the entry at that position; a missing wall fails as such; a valid profile gives a coefficient in [0, 1] for every band |
| Motion.Integrate | acoustician.py:365-366 | the position advances by the velocity and nothing else changes |
| Motion.EdgeBounce | acoustician.py:369-373 | without a crossing the ball is unchanged; with one, one velocity component is negated and the colour absorbed with edge `k`'s coefficient, failing exactly when that lookup fails |
| Motion.Edges | acoustician.py:369-391 | the four edge checks keep the position and band |
| Motion.EdgesNoHit | acoustician.py:369-391 | a ball inside every threshold keeps its velocity and colour |
| Motion.EdgesEffect | acoustician.py:369-391 | the x-velocity flips on a right or left crossing, the y-velocity on a bottom or top crossing; the colour is absorbed once per crossed edge in the order bottom, right, top, left |
| Motion.PlanarDistSign | acoustician.py:400-402 | the stored distance is negative exactly when `normal . future < c`, because `d` is positive |
| Motion.CircleBounce | acoustician.py:412-417 | the incremental circular update `v += 2(-(v.r))r` is the specular reflection about `r` |
| Motion.WallStep | acoustician.py:394-418 | one interior wall: fails exactly when the coefficient lookup fails, even without a collision; a planar wall reflects and absorbs exactly when the predicted position is behind it; a circular wall absorbs and applies `CircleBounce` with the bearing from the centre to the predicted position exactly when the ball is strictly inside; otherwise the ball is unchanged |
| Motion.Interior | acoustician.py:394-418 | the interior walls in list order keep the position and band |
| Motion.Step | acoustician.py:364-418 | a whole step moves the ball by its velocity and keeps its band |
| Motion.InteriorDecays | acoustician.py:394-418 | with valid profiles, the interior pass succeeds, keeps the colour 8-bit and never brightens it |
| Motion.EdgeColorDecays | acoustician.py:369-391 | with valid edge profiles, the edge absorptions keep the colour 8-bit and never brighten it |
| Motion.StepDecays | acoustician.py:364-418 | with valid walls and a known band, a step succeeds, keeps the colour 8-bit and never brightens it |
| Motion.InteriorKeepsSpeed | acoustician.py:394-418 | with unit bearings, every interior reflection keeps the squared speed |
| Motion.StepKeepsSpeed | acoustician.py:364-418 | with unit bearings, a whole step keeps the squared speed |
| Simulation.SkipTick | acoustician.py:364-422 | the tick as a function of the ball list; the result is never longer than the input |
| Simulation.Tick | acoustician.py:364-422 | the index loop with in-place removal computes exactly `SkipTick`: a spent ball is dropped and the ball after it is not stepped in that tick |
| Simulation.RetireSkipsNext | acoustician.py:421-422 | when the first ball retires, the second ball stays in the list exactly as it was |
| Simulation.SkipTickKeepsBallsOk | acoustician.py:364-422 | from valid walls and active balls the tick succeeds and every kept ball is active |
| Simulation.CompactTick | acoustician.py:364-422 | the intended tick: succeeds exactly when every step does; returns no more balls than it was given, none spent, each the result of stepping some input ball, and contains every stepped ball that is not spent |
| Simulation.CompactTickOrder | acoustician.py:364-422 | the intended tick's result is the surviving stepped balls in input order, each exactly once: an increasing index sequence maps result positions to input positions and names every input whose stepped ball is not spent |
| Simulation.CompactTickKeepsBallsOk | acoustician.py:364-422 | from valid walls and active balls the intended tick succeeds and every kept ball is active |
| Simulation.SkipTickWithoutRetirement | acoustician.py:421-422 | when no ball retires, the original tick and the intended tick agree |
| Simulation.SkipTickPassesOverNext | acoustician.py:421-422 | with fully absorbing edges, a ball dying at the bottom edge leaves the ball behind it unmoved, which the intended tick would have moved |
| Simulation.EdgeWallsAbsorbing | acoustician.py:311-314 | the window edges built from the all-ones profile satisfy the precondition of the counterexample |
| Simulation.EdgeWall | acoustician.py:311-314 | an edge wall keeps its endpoints and profile, has `d = 1`, `unit = normal` and an axis unit normal |
| Simulation.EdgeWallIsMakeWall | acoustician.py:137-191 | for every horizontal or vertical segment and every source, the edge wall equals what `Wall.__init__` builds with `d = 1` |
| Simulation.EdgeLine | acoustician.py:152-179 | the edge wall's line is the oriented line of its segment |
| Simulation.VerticalOnLine | acoustician.py:176-179 | a source on a vertical wall's line flips its normal to `(-1, 0)` |
| Simulation.HorizontalOnLine | acoustician.py:160-179 | a source on a horizontal wall's line keeps the normal `(0, 1)` |
| Simulation.AxisAlignedUnit | acoustician.py:183 | the oriented normal of an axis-aligned wall has length 1 |
| Simulation.OrientedLineChoice | acoustician.py:176-179 | the oriented line is the raw one when the source is strictly on its positive side, and the flipped one when strictly on its negative side |
| Simulation.AxisRawLine | acoustician.py:149-173 | a horizontal wall's raw line is `y = y0`, a vertical wall's is `x = x0` |
| Simulation.AxisOrientedLine | acoustician.py:152-179 | the four possible oriented lines of an axis-aligned wall, by the source's side |
| Simulation.EdgeWalls | acoustician.py:311-314 | four edge walls, each planar with `d = 1` and the given profile |
| Simulation.EdgeWallsWellFormed | acoustician.py:311-314 | every edge wall satisfies the wall invariant |
| Simulation.EdgeWallsInward | acoustician.py:311-314 | with the source inside the window, the edges are `y = 0`, `x = 500`, `y = 500` and `x = 0`, each with its normal pointing into the room |
| Simulation.Setup | acoustician.py:281-314 | succeeds exactly for a source 5..495 in both coordinates and two different angles; gives a source built by `MakeSource` from the typed position and angles, in their typed order, an empty ball list, the four edges in smooth concrete, and 125 Hz; out-of-bounds and equal angles fail with their outcomes |
| Simulation.SetEdgeAbs | acoustician.py:357-360 | replaces the profile of exactly the first four walls and the edge material; everything else is unchanged |
| Simulation.SetEdgeAbsRates | acoustician.py:357-360 | afterwards every edge bounce reads the new profile, every interior wall keeps its own, and the last replacement wins |
| Simulation.SetEdgeAbsKeepsSceneOk | acoustician.py:357-360 | replacing the edge material with a valid profile keeps the scene invariant |
| Simulation.EmitPulse | acoustician.py:470-471 | succeeds exactly for a known band; the result is the scene with its ball list replaced by `MakeBalls`' extension of it (the existing balls kept in front, eleven pulse balls from the scene's source and band after them), everything else unchanged; keeps the scene invariant |
| Simulation.AddWall | acoustician.py:449-465 | appends the wall at the end of the wall list, leaves the balls, source, edge material and band unchanged, and keeps the scene invariant for a well-formed wall with a valid profile |
| Simulation.TickScene | acoustician.py:363-422 | one tick replaces the ball list by `SkipTick` and keeps the scene invariant |

## Left out

- Rendering and input plumbing is not modelled: `draw`, `on_draw`, the buttons, `UIManager`, the window and `main`. The mouse handlers appear only as `AddWall`, and the space key only as `EmitPulse`.
- Setting the band with keys 1-6 is not modelled: it only assigns a constant to `freq`.
- Console prompts are not modelled: the retry loops of `vary_material`, `get_int_input` and `setup`, float and int parsing, and `check_quit`/`quit()`. Each rejected input is a `Failure` outcome instead of a new prompt.
- Floating point: numbers are exact reals. `int(rate*255)` is `Trunc` of the exact product, so a binary product that lands just below an integer can differ by one.
- The square root in `Wall.__init__` is not computed. It is the parameter `d`, with `d > 0` and `d*d` equal to the squared length of the normal. Edge walls use `d = 1` exactly.
- The circular wall's radius, a square root of the mouse drag, is taken as given. `dist < radius` is compared through squares.
- `np.pi` is the parameter `pi`.
- `sin` and `cos` of a ray angle are a `heading` function parameter.
- `cos`/`sin` of `atan2` in the circular bounce are a `bearing` function parameter.
- Absorption.ManualEntry: exact reals have no NaN or infinities. The original's `float()` also parses `nan` and `-inf`, which pass the only range test `> 1.0` (acoustician.py:55) because both comparisons are false; the first absorption with such a coefficient then raises in `int(absRate*255)` (acoustician.py:351), ValueError for NaN and OverflowError for `-inf`. The model cannot represent these inputs.
- Motion.StepKeepsSpeed: requires `bearing` to yield unit vectors, as `Motion.InteriorKeepsSpeed` does.
- Motion.InteriorKeepsSpeed: requires `bearing` to yield unit vectors, which (cos, sin) does only up to rounding.
- The source takes exactly two coordinates. If three integers are typed, the original passes the bounds check and then fails inside numpy when it builds the first edge wall. The model does not represent this.
- `delta_time` of `on_update` is ignored, as it is in the original.

## Findings

| source | as written | input that shows it | evidently intended | confidence | as-written member | corrected member |
|---|---|---|---|---|---|---|
| acoustician.py:421-422 | `ball_list.remove(ball)` inside `for ball in ball_list` shifts the list under the iterator | fully absorbing edges; a ball at (250, 3) moving (0, -1) followed by a ball at (100, 100) moving (1, 0): the first dies at the bottom edge and the second stays at (100, 100) | every ball is stepped once per tick and spent balls are dropped afterwards | high, not executed | Simulation.SkipTickPassesOverNext | Simulation.CompactTick |
| acoustician.py:53-57 | the manual entry rejects only coefficients above 1.0 | coefficients (-0.5, 0, 0, 0, 0, 0) are accepted; one absorption then turns red 255 into 382 | coefficients in [0, 1], so absorption never brightens a ball | medium, not executed | Absorption.ManualEntryAcceptsNegative | Absorption.CheckedEntry |

=== FILE: absorption.dfy ===
/** Absorption coefficients per frequency band: the five material presets,
    the band lookup and the manual-entry check. */
module Absorption {
  import opened Results

  /** Six coefficients, one per band in ascending order. */
  type Profile = seq<real>

  /** The frequency bands in Hz, in the order of a profile's entries. */
  const Bands: seq<int> := [125, 250, 500, 1000, 2000, 4000]

  predicate IsBand(f: int) {
    f in Bands
  }

  /** The intended shape of a profile: six coefficients, each in [0, 1]. */
  predicate ValidProfile(p: Profile) {
    |p| == 6 && forall i :: 0 <= i < |p| ==> 0.0 <= p[i] <= 1.0
  }

  /** Position of a band in `Bands`. */
  function BandIndex(f: int): (i: nat)
    requires IsBand(f)
    ensures i < |Bands| && Bands[i] == f
  {
    if f == 125 then 0
    else if f == 250 then 1
    else if f == 500 then 2
    else if f == 1000 then 3
    else if f == 2000 then 4
    else 5
  }

  /** Preset material by dictionary key 0..4; any other key is a KeyError. */
  function SetAbsorb(key: int): (r: Result<Profile>)
    ensures r.Success? <==> 0 <= key <= 4
    ensures r.Failure? ==> r.error == InvalidMaterialIndex
    ensures r.Success? ==> ValidProfile(r.value)
  {
    if key == 0 then Success([0.01, 0.01, 0.03, 0.03, 0.04, 0.07])      // smooth unpainted concrete
    else if key == 1 then Success([0.30, 0.20, 0.15, 0.05, 0.05, 0.05]) // plasterboard over glass wool
    else if key == 2 then Success([0.15, 0.40, 0.65, 0.35, 0.35, 0.30]) // muslin-covered cotton felt
    else if key == 3 then Success([0.05, 0.04, 0.02, 0.04, 0.05, 0.05]) // standard brickwork
    else if key == 4 then Success([0.10, 0.20, 0.40, 0.60, 0.50, 0.60]) // clinker concrete
    else Failure(InvalidMaterialIndex)
  }

  /** The material menu numbers its entries from 1 and looks up key choice - 1. */
  function MenuMaterial(choice: int): (r: Result<Profile>)
    ensures r.Success? <==> 1 <= choice <= 5
    ensures r.Success? ==> ValidProfile(r.value)
    ensures r.Failure? ==> r.error == InvalidMaterialIndex
  {
    SetAbsorb(choice - 1)
  }

  /** The coefficient of `p` for band `f`: the entry at the band's position.
      A frequency outside the bands fails (list.index raises); so does a
      list too short to hold that position. */
  function CurrentAbs(p: Profile, f: int): (r: Result<real>)
    ensures !IsBand(f) ==> r == Failure(InvalidBand)
    ensures forall i :: 0 <= i < |Bands| && Bands[i] == f && i < |p| ==> r == Success(p[i])
    ensures forall i :: 0 <= i < |Bands| && Bands[i] == f && |p| <= i ==> r == Failure(MissingCoefficient)
  {
    if !IsBand(f) then Failure(InvalidBand)
    else
      var i := BandIndex(f);
      if i < |p| then Success(p[i]) else Failure(MissingCoefficient)
  }

  /** A coefficient read from a valid profile lies in [0, 1]. */
  lemma CurrentAbsInRange(p: Profile, f: int)
    requires ValidProfile(p) && IsBand(f)
    ensures CurrentAbs(p, f).Success?
    ensures 0.0 <= CurrentAbs(p, f).value <= 1.0
  {
  }

  /** Manual coefficient entry as the original checks it: exactly six values,
      none greater than 1.0. Negative values are accepted. */
  function ManualEntry(values: seq<real>): (r: Result<Profile>)
    ensures r.Success? <==> |values| == 6 && forall i :: 0 <= i < |values| ==> values[i] <= 1.0
    ensures r.Success? ==> r.value == values
    ensures |values| != 6 ==> r == Failure(MalformedProfile)
  {
    if |values| != 6 then Failure(MalformedProfile)
    else if AnyAboveOne(values, 0) then Failure(CoefficientAboveOne)
    else Success(values)
  }

  /** Whether some value at position `i` or later exceeds 1.0. */
  function AnyAboveOne(values: seq<real>, i: nat): (b: bool)
    requires i <= |values|
    ensures b <==> exists j :: i <= j < |values| && values[j] > 1.0
    decreases |values| - i
  {
    if i == |values| then false
    else values[i] > 1.0 || AnyAboveOne(values, i + 1)
  }

  /** The entry check with a lower bound of 0.0 added, since an absorption
      coefficient is a fraction of the incident energy and lies in [0, 1]:
      it accepts exactly the valid profiles. */
  function CheckedEntry(values: seq<real>): (r: Result<Profile>)
    ensures r.Success? <==> ValidProfile(values)
    ensures r.Success? ==> r.value == values
    ensures ManualEntry(values).Failure? ==> r.Failure?
  {
    match ManualEntry(values)
    case Failure(e) => Failure(e)
    case Success(p) =>
      if exists i :: 0 <= i < |p| && p[i] < 0.0 then Failure(CoefficientBelowZero)
      else Success(p)
  }

  /** The original's entry check lets a negative coefficient through. */
  lemma ManualEntryAcceptsNegative()
    ensures ManualEntry([-0.5, 0.0, 0.0, 0.0, 0.0, 0.0]).Success?
    ensures !ValidProfile([-0.5, 0.0, 0.0, 0.0, 0.0, 0.0])
  {
  }
}

=== FILE: motion.dfy ===
/** One ball's update within a tick: move by the velocity, bounce off the
    four window edges by coordinate thresholds, then test every interior
    wall in list order. A failed coefficient lookup propagates as the
    exception it is in the original. */
module Motion {
  import opened Results
  import opened Vectors
  import opened Absorption
  import opened Particles
  import opened Walls

  const ScreenWidth: real := 500.0
  const ScreenHeight: real := 500.0
  /** Collision radius of every ball. */
  const BallSize: real := 5.0
  /** Walls 0..3 are the bottom, right, top and left window edges. */
  const EdgeCount: nat := 4

  /** The absorption coefficient of wall `k` for band `f`. */
  function WallRate(walls: seq<Wall>, k: nat, f: int): (r: Result<real>)
    ensures k >= |walls| ==> r == Failure(MissingWall)
    ensures r.Success? <==> k < |walls| && IsBand(f) && BandIndex(f) < |walls[k].absorb|
    ensures r.Success? ==> r.value == walls[k].absorb[BandIndex(f)]
    ensures k < |walls| && ValidProfile(walls[k].absorb) && IsBand(f) ==> r.Success? && 0.0 <= r.value <= 1.0
  {
    if k < |walls| then CurrentAbs(walls[k].absorb, f) else Failure(MissingWall)
  }

  /** Position integration: one velocity step, nothing else changes. */
  function Integrate(b: Ball): (r: Ball)
    ensures r.pos == Add(b.pos, b.vel)
    ensures r.vel == b.vel && r.freq == b.freq && r.color == b.color
  {
    b.(pos := Vec(b.pos.x + b.vel.x, b.pos.y + b.vel.y))
  }

  function FlipX(v: Vec): Vec { Vec(-v.x, v.y) }
  function FlipY(v: Vec): Vec { Vec(v.x, -v.y) }

  /** One edge check: when `hit`, negate the x- or y-velocity and absorb
      with edge wall `k`'s coefficient. */
  function EdgeBounce(b: Ball, walls: seq<Wall>, k: nat, hit: bool, flipX: bool): (r: Result<Ball>)
    ensures !hit ==> r == Success(b)
    ensures hit ==> (r.Success? <==> WallRate(walls, k, b.freq).Success?)
    ensures hit && r.Success? ==>
      && r.value.pos == b.pos && r.value.freq == b.freq
      && r.value.vel == (if flipX then FlipX(b.vel) else FlipY(b.vel))
      && r.value.color == AbsColor(WallRate(walls, k, b.freq).value, b.color)
  {
    if !hit then Success(b)
    else
      var v := if flipX then FlipX(b.vel) else FlipY(b.vel);
      var rate :- WallRate(walls, k, b.freq);
      Success(b.(vel := v, color := AbsColor(rate, b.color)))
  }

  predicate HitsBottom(p: Vec) { p.y < BallSize }
  predicate HitsRight(p: Vec) { p.x > ScreenWidth - BallSize }
  predicate HitsTop(p: Vec) { p.y > ScreenHeight - BallSize }
  predicate HitsLeft(p: Vec) { p.x < BallSize }

  /** The four edge checks, bottom, right, top, left, each independent of
      the others. */
  function Edges(b: Ball, walls: seq<Wall>): (r: Result<Ball>)
    ensures r.Success? ==> r.value.pos == b.pos && r.value.freq == b.freq
  {
    var b0 :- EdgeBounce(b, walls, 0, HitsBottom(b.pos), false);
    var b1 :- EdgeBounce(b0, walls, 1, HitsRight(b0.pos), true);
    var b2 :- EdgeBounce(b1, walls, 2, HitsTop(b1.pos), false);
    EdgeBounce(b2, walls, 3, HitsLeft(b2.pos), true)
  }

  /** A ball inside every edge threshold keeps its velocity and colour. */
  lemma EdgesNoHit(b: Ball, walls: seq<Wall>)
    requires !HitsBottom(b.pos) && !HitsRight(b.pos) && !HitsTop(b.pos) && !HitsLeft(b.pos)
    ensures Edges(b, walls) == Success(b)
  {
  }

  /** Each crossed edge negates its velocity component and absorbs once:
      y flips on a bottom or top crossing, x on a right or left crossing,
      and a ball in a corner is absorbed twice, bottom/top before right/left
      in the order bottom, right, top, left. */
  lemma EdgesEffect(b: Ball, walls: seq<Wall>)
    requires |walls| >= EdgeCount && IsBand(b.freq)
    requires forall k :: 0 <= k < EdgeCount ==> |walls[k].absorb| == 6
    ensures Edges(b, walls).Success?
    ensures var r := Edges(b, walls).value;
      && r.vel.x == (if HitsRight(b.pos) || HitsLeft(b.pos) then -b.vel.x else b.vel.x)
      && r.vel.y == (if HitsBottom(b.pos) || HitsTop(b.pos) then -b.vel.y else b.vel.y)
      && r.color == EdgeColor(b, walls)
  {
    forall k | 0 <= k < EdgeCount
      ensures WallRate(walls, k, b.freq).Success?
    {
      assert BandIndex(b.freq) < |walls[k].absorb|;
    }
  }

  /** The colour after the edge checks: one absorption per crossed edge,
      in check order. */
  function EdgeColor(b: Ball, walls: seq<Wall>): Color
    requires |walls| >= EdgeCount && IsBand(b.freq)
    requires forall k :: 0 <= k < EdgeCount ==> |walls[k].absorb| == 6
  {
    var c0 := if HitsBottom(b.pos) then AbsColor(CurrentAbs(walls[0].absorb, b.freq).value, b.color) else b.color;
    var c1 := if HitsRight(b.pos) then AbsColor(CurrentAbs(walls[1].absorb, b.freq).value, c0) else c0;
    var c2 := if HitsTop(b.pos) then AbsColor(CurrentAbs(walls[2].absorb, b.freq).value, c1) else c1;
    if HitsLeft(b.pos) then AbsColor(CurrentAbs(walls[3].absorb, b.freq).value, c2) else c2
  }

  /** Signed distance of the predicted position from a planar wall. */
  function PlanarDist(w: Wall, future: Vec): real
    requires w.Planar? && w.d != 0.0
  {
    (Dot(w.normal, future) - w.c) / w.d
  }

  /** The planar test fires exactly when the predicted position is on the
      far side of the wall line, since `d` is positive. */
  lemma PlanarDistSign(w: Wall, future: Vec)
    requires w.Planar? && w.d > 0.0
    ensures PlanarDist(w, future) < 0.0 <==> Dot(w.normal, future) < w.c
  {
    var n := Dot(w.normal, future) - w.c;
    assert PlanarDist(w, future) * w.d == n;
  }

  /** The circular test compares distance to radius; with the radius a
      non-negative square root this is a comparison of squares. */
  predicate InsideDisk(p: Vec, center: Vec, radius: real) {
    radius > 0.0 && NormSq(Sub(center, p)) < radius * radius
  }

  /** The incremental circular bounce `v += 2 * (-(v . r)) * r`. */
  function CircleBounce(v: Vec, rHat: Vec): (r: Vec)
    ensures r == Reflect(v, rHat)
  {
    var vr := -Dot(v, rHat);
    Vec(v.x + 2.0 * vr * rHat.x, v.y + 2.0 * vr * rHat.y)
  }

  /** All planar walls carry a positive length `d`. */
  predicate WallsWellFormed(walls: seq<Wall>) {
    forall k :: 0 <= k < |walls| ==> WellFormed(walls[k])
  }

  /** One interior wall. The coefficient is looked up before the wall kind
      is examined, so an unknown band fails even without a collision.
      `bearing(dx, dy)` stands for (cos, sin) of atan2(dy, dx). */
  function WallStep(b: Ball, w: Wall, bearing: (real, real) -> Vec): (r: Result<Ball>)
    requires WellFormed(w)
    ensures r.Success? <==> CurrentAbs(w.absorb, b.freq).Success?
    ensures r.Success? ==> r.value.pos == b.pos && r.value.freq == b.freq
    ensures r.Success? && w.Planar? ==>
      if Dot(w.normal, Add(b.pos, b.vel)) < w.c
      then r.value.vel == Reflect(b.vel, w.unit) && r.value.color == AbsColor(CurrentAbs(w.absorb, b.freq).value, b.color)
      else r.value == b
    ensures r.Success? && w.Circular? ==>
      if InsideDisk(b.pos, w.center, w.radius)
      then
        && r.value.color == AbsColor(CurrentAbs(w.absorb, b.freq).value, b.color)
        && r.value.vel == CircleBounce(b.vel, bearing(b.pos.x + b.vel.x - w.center.x, b.pos.y + b.vel.y - w.center.y))
      else r.value == b
  {
    var future := Vec(b.pos.x + b.vel.x, b.pos.y + b.vel.y);
    var rate :- CurrentAbs(w.absorb, b.freq);
    match w
    case Planar(_, _, _, _, _, _, _) =>
      PlanarDistSign(w, future);
      if PlanarDist(w, future) < 0.0 then
        var perp := Scale(2.0 * Dot(w.unit, b.vel), w.unit);
        Success(b.(vel := Sub(b.vel, perp), color := AbsColor(rate, b.color)))
      else Success(b)
    case Circular(center, radius, _) =>
      if InsideDisk(b.pos, center, radius) then
        var rHat := bearing(future.x - center.x, future.y - center.y);
        Success(b.(vel := CircleBounce(b.vel, rHat), color := AbsColor(rate, b.color)))
      else Success(b)
  }

  /** The interior walls `walls[k..]` in list order, each seeing the
      velocity left by the previous one. */
  function Interior(b: Ball, walls: seq<Wall>, k: nat, bearing: (real, real) -> Vec): (r: Result<Ball>)
    requires WallsWellFormed(walls)
    ensures r.Success? ==> r.value.pos == b.pos && r.value.freq == b.freq
    decreases |walls| - k
  {
    if k >= |walls| then Success(b)
    else
      var b' :- WallStep(b, walls[k], bearing);
      Interior(b', walls, k + 1, bearing)
  }

  /** One ball's step in `on_update`, before the retirement check. */
  function Step(b: Ball, walls: seq<Wall>, bearing: (real, real) -> Vec): (r: Result<Ball>)
    requires WallsWellFormed(walls)
    ensures r.Success? ==> r.value.pos == Add(b.pos, b.vel) && r.value.freq == b.freq
  {
    var moved := Integrate(b);
    var bounced :- Edges(moved, walls);
    Interior(bounced, walls, EdgeCount, bearing)
  }

  /** Interior walls whose profiles hold a coefficient in [0, 1] for the
      ball's band keep its colour in range and never brighten it. */
  lemma {:induction false} InteriorDecays(b: Ball, walls: seq<Wall>, k: nat, bearing: (real, real) -> Vec)
    requires WallsWellFormed(walls) && IsBand(b.freq) && InRange(b.color)
    requires forall j :: 0 <= j < |walls| ==> ValidProfile(walls[j].absorb)
    ensures Interior(b, walls, k, bearing).Success?
    ensures InRange(Interior(b, walls, k, bearing).value.color)
    ensures Dimmer(Interior(b, walls, k, bearing).value.color, b.color)
    decreases |walls| - k
  {
    if k < |walls| {
      CurrentAbsInRange(walls[k].absorb, b.freq);
      AbsColorDecays(CurrentAbs(walls[k].absorb, b.freq).value, b.color);
      var b' := WallStep(b, walls[k], bearing).value;
      InteriorDecays(b', walls, k + 1, bearing);
    }
  }

  /** With every wall's profile valid and a known band, a step succeeds,
      keeps the colour in range and never brightens it. */
  lemma StepDecays(b: Ball, walls: seq<Wall>, bearing: (real, real) -> Vec)
    requires WallsWellFormed(walls) && |walls| >= EdgeCount && IsBand(b.freq) && InRange(b.color)
    requires forall j :: 0 <= j < |walls| ==> ValidProfile(walls[j].absorb)
    ensures Step(b, walls, bearing).Success?
    ensures InRange(Step(b, walls, bearing).value.color)
    ensures Dimmer(Step(b, walls, bearing).value.color, b.color)
  {
    var moved := Integrate(b);
    EdgesEffect(moved, walls);
    var bounced := Edges(moved, walls).value;
    forall k | 0 <= k < EdgeCount
      ensures 0.0 <= CurrentAbs(walls[k].absorb, b.freq).value <= 1.0
    {
      CurrentAbsInRange(walls[k].absorb, b.freq);
    }
    EdgeColorDecays(moved, walls);
    InteriorDecays(bounced, walls, EdgeCount, bearing);
  }

  lemma EdgeColorDecays(b: Ball, walls: seq<Wall>)
    requires |walls| >= EdgeCount && IsBand(b.freq) && InRange(b.color)
    requires forall k :: 0 <= k < EdgeCount ==> |walls[k].absorb| == 6
    requires forall k :: 0 <= k < EdgeCount ==> ValidProfile(walls[k].absorb)
    ensures InRange(EdgeColor(b, walls)) && Dimmer(EdgeColor(b, walls), b.color)
  {
    var rates := seq(EdgeCount, k requires 0 <= k < EdgeCount => CurrentAbs(walls[k].absorb, b.freq).value);
    forall k | 0 <= k < EdgeCount
      ensures 0.0 <= rates[k] <= 1.0
    {
      CurrentAbsInRange(walls[k].absorb, b.freq);
    }
    var c0 := if HitsBottom(b.pos) then AbsColor(rates[0], b.color) else b.color;
    AbsColorDecays(rates[0], b.color);
    var c1 := if HitsRight(b.pos) then AbsColor(rates[1], c0) else c0;
    AbsColorDecays(rates[1], c0);
    var c2 := if HitsTop(b.pos) then AbsColor(rates[2], c1) else c1;
    AbsColorDecays(rates[2], c1);
    AbsColorDecays(rates[3], c2);
  }

  /** Every reflection preserves the squared speed, given that the planar
      walls' stored normals are unit (which `WellFormed` implies) and the
      bearing function yields unit vectors, as (cos, sin) does. */
  lemma {:induction false} InteriorKeepsSpeed(b: Ball, walls: seq<Wall>, k: nat, bearing: (real, real) -> Vec)
    requires WallsWellFormed(walls)
    requires forall dx: real, dy: real :: IsUnit(bearing(dx, dy))
    requires Interior(b, walls, k, bearing).Success?
    ensures NormSq(Interior(b, walls, k, bearing).value.vel) == NormSq(b.vel)
    decreases |walls| - k
  {
    if k < |walls| {
      var w := walls[k];
      if w.Planar? {
        UnitNormal(w.normal, w.d);
      }
      var b' := WallStep(b, w, bearing).value;
      assert NormSq(b'.vel) == NormSq(b.vel);
      InteriorKeepsSpeed(b', walls, k + 1, bearing);
    }
  }

  /** A whole step preserves the squared speed: edge bounces negate a
      component and interior reflections are specular. */
  lemma StepKeepsSpeed(b: Ball, walls: seq<Wall>, bearing: (real, real) -> Vec)
    requires WallsWellFormed(walls)
    requires forall dx: real, dy: real :: IsUnit(bearing(dx, dy))
    requires Step(b, walls, bearing).Success?
    ensures NormSq(Step(b, walls, bearing).value.vel) == NormSq(b.vel)
  {
    var moved := Integrate(b);
    var b0 := EdgeBounce(moved, walls, 0, HitsBottom(moved.pos), false).value;
    var b1 := EdgeBounce(b0, walls, 1, HitsRight(b0.pos), true).value;
    var b2 := EdgeBounce(b1, walls, 2, HitsTop(b1.pos), false).value;
    var b3 := EdgeBounce(b2, walls, 3, HitsLeft(b2.pos), true).value;
    assert NormSq(b3.vel) == NormSq(b.vel);
    InteriorKeepsSpeed(b3, walls, EdgeCount, bearing);
  }
}

=== FILE: particles.dfy ===
/** A ball (ray particle): position, velocity, band and remaining energy,
    shown as its colour. Energy is lost by subtracting a truncated multiple
    of the absorption coefficient from every lit colour channel. */
module Particles {
  import opened Results
  import opened Vectors
  import opened Absorption

  datatype Color = Color(r: int, g: int, b: int)

  const Black := Color(0, 0, 0)

  datatype Ball = Ball(pos: Vec, vel: Vec, freq: int, color: Color)

  /** Every channel is an 8-bit value. */
  predicate InRange(c: Color) {
    0 <= c.r <= 255 && 0 <= c.g <= 255 && 0 <= c.b <= 255
  }

  /** Channel-wise comparison: `c` is nowhere brighter than `d`. */
  predicate Dimmer(c: Color, d: Color) {
    c.r <= d.r && c.g <= d.g && c.b <= d.b
  }

  /** A ball is spent once its colour is black. */
  predicate Spent(b: Ball) {
    b.color == Black
  }

  /** The starting colour of each band; any other frequency is a KeyError. */
  function InitialColor(f: int): (r: Result<Color>)
    ensures r.Success? <==> IsBand(f)
    ensures r.Failure? ==> r.error == InvalidBand
    ensures r.Success? ==> InRange(r.value) && r.value != Black
  {
    if f == 125 then Success(Color(255, 0, 0))          // red
    else if f == 250 then Success(Color(255, 240, 0))   // yellow
    else if f == 500 then Success(Color(0, 255, 0))     // green
    else if f == 1000 then Success(Color(0, 255, 255))  // cyan
    else if f == 2000 then Success(Color(0, 0, 255))    // blue
    else if f == 4000 then Success(Color(255, 0, 255))  // magenta
    else Failure(InvalidBand)
  }

  /** Python's int() on a float: truncation toward zero. */
  function Trunc(x: real): (n: int)
    ensures 0.0 <= x ==> 0 <= n && n as real <= x < n as real + 1.0
    ensures x < 0.0 ==> n <= 0 && n as real - 1.0 < x <= n as real
  {
    if 0.0 <= x then x.Floor else -((-x).Floor)
  }

  /** The amount one absorption removes from a lit channel. */
  function Removal(rate: real): int {
    Trunc(rate * 255.0)
  }

  /** One channel after absorption: an unlit channel stays as it is,
      a lit one loses `k` and is clamped at zero. */
  function AbsorbChannel(ch: int, k: int): (r: int)
    ensures 0 <= ch && 0 <= k ==> 0 <= r <= ch
    ensures r == 0 <==> ch == 0 || ch <= k
    ensures r != 0 ==> r == ch - k
  {
    if ch != 0 then
      var v := ch - k;
      if v < 0 then 0 else v
    else ch
  }

  /** The colour after one absorption with coefficient `rate`. */
  function AbsColor(rate: real, c: Color): (r: Color)
    ensures c.r == 0 ==> r.r == 0
    ensures c.g == 0 ==> r.g == 0
    ensures c.b == 0 ==> r.b == 0
    ensures c.r != 0 ==> r.r == Max0(c.r - Removal(rate))
    ensures c.g != 0 ==> r.g == Max0(c.g - Removal(rate))
    ensures c.b != 0 ==> r.b == Max0(c.b - Removal(rate))
  {
    var k := Removal(rate);
    Color(AbsorbChannel(c.r, k), AbsorbChannel(c.g, k), AbsorbChannel(c.b, k))
  }

  function Max0(v: int): int {
    if v < 0 then 0 else v
  }

  /** A coefficient in [0, 1] removes between 0 and 255. */
  lemma RemovalInRange(rate: real)
    requires 0.0 <= rate <= 1.0
    ensures 0 <= Removal(rate) <= 255
  {
  }

  /** Truncation, not rounding: 0.07 removes 17 (0.07 * 255 = 17.85). */
  lemma RemovalTruncates()
    ensures Removal(0.07) == 17
  {
  }

  /** With a coefficient in [0, 1], absorption keeps every channel in range
      and never brightens it. */
  lemma AbsColorDecays(rate: real, c: Color)
    requires 0.0 <= rate <= 1.0 && InRange(c)
    ensures InRange(AbsColor(rate, c))
    ensures Dimmer(AbsColor(rate, c), c)
  {
    RemovalInRange(rate);
  }

  /** A coefficient too small to remove a whole unit leaves the colour alone. */
  lemma AbsColorNoRemoval(rate: real, c: Color)
    requires Removal(rate) == 0 && InRange(c)
    ensures AbsColor(rate, c) == c
  {
  }

  /** A coefficient of 1.0 extinguishes the ball at once. */
  lemma AbsColorFullAbsorption(c: Color)
    requires InRange(c)
    ensures AbsColor(1.0, c) == Black
  {
  }

  /** A negative coefficient, which the manual entry accepts, brightens a
      lit channel past 255. */
  lemma AbsColorNegativeBrightens()
    ensures AbsColor(-0.5, Color(255, 0, 0)) == Color(382, 0, 0)
    ensures !InRange(AbsColor(-0.5, Color(255, 0, 0)))
  {
    assert Removal(-0.5) == -127;
  }

  /** `n` absorptions with the same coefficient. */
  function AbsorbTimes(rate: real, c: Color, n: nat): Color {
    if n == 0 then c else AbsColor(rate, AbsorbTimes(rate, c, n - 1))
  }

  /** After `n` absorptions that each remove `k >= 0`, every channel is
      at most its start value less `n * k`, clamped at zero. */
  lemma {:induction false} AbsorbTimesBound(rate: real, c: Color, n: nat)
    requires 0 <= Removal(rate) && InRange(c)
    ensures InRange(AbsorbTimes(rate, c, n))
    ensures AbsorbTimes(rate, c, n).r <= Max0(c.r - n * Removal(rate))
    ensures AbsorbTimes(rate, c, n).g <= Max0(c.g - n * Removal(rate))
    ensures AbsorbTimes(rate, c, n).b <= Max0(c.b - n * Removal(rate))
  {
    if n > 0 {
      AbsorbTimesBound(rate, c, n - 1);
      var k := Removal(rate);
      assert (n - 1) * k + k == n * k;
    }
  }

  /** Any coefficient that removes at least one unit retires a ball after
      at most 255 absorptions. */
  lemma AbsorbTimesExtinguishes(rate: real, c: Color)
    requires 1 <= Removal(rate) && InRange(c)
    ensures AbsorbTimes(rate, c, 255) == Black
  {
    AbsorbTimesBound(rate, c, 255);
    var k := Removal(rate);
    assert 255 * k >= 255;
  }
}

=== FILE: results.dfy ===
/** Failure-compatible result type for the operations of the acoustics model.
    Each `Error` names a Python exception the original code can raise on
    that path, or a configuration prompt that would ask again. */
module Results {

  datatype Error =
    | InvalidMaterialIndex   // KeyError in the preset dictionary
    | InvalidBand            // ValueError/KeyError for a frequency outside the six bands
    | MissingCoefficient     // IndexError: a coefficient list shorter than the band index
    | MissingWall            // IndexError: fewer than four walls in the wall list
    | MalformedProfile       // manual entry without exactly six values
    | CoefficientAboveOne    // manual entry with a value greater than 1.0
    | CoefficientBelowZero   // a negative coefficient (only the corrected entry check rejects it)
    | InvalidAngularSpan     // ZeroDivisionError: both pulse angles equal
    | SourceOutOfBounds      // source closer than 5 to the window border

  datatype Result<+T> = Success(value: T) | Failure(error: Error) {

    predicate IsFailure() {
      Failure?
    }

    function PropagateFailure<U>(): Result<U>
      requires Failure?
    {
      Failure(error)
    }

    function Extract(): T
      requires Success?
    {
      value
    }
  }
}

=== FILE: simulation.dfy ===
/** The scene and its tick: the wall list whose first four entries are the
    window edges, the active balls, the edge material, and the per-tick
    pass over the balls with in-loop removal of spent ones. */
module Simulation {
  import opened Results
  import opened Vectors
  import opened Absorption
  import opened Particles
  import opened Walls
  import opened Sources
  import opened Motion

  /** The edge material before any change: smooth concrete. */
  const DefaultEdgeAbs: Profile := [0.01, 0.01, 0.03, 0.03, 0.04, 0.07]
  /** The pulse band before any key press. */
  const DefaultFreq: int := 125

  datatype Scene = Scene(source: Source, walls: seq<Wall>, balls: seq<Ball>, edgeAbs: Profile, freq: int)

  /** `Success(p + rest)` when `r` is `Success(rest)`; failures pass through. */
  function Prepend(p: seq<Ball>, r: Result<seq<Ball>>): Result<seq<Ball>> {
    match r
    case Success(rest) => Success(p + rest)
    case Failure(e) => Failure(e)
  }

  lemma PrependAssoc(p: seq<Ball>, q: seq<Ball>, r: Result<seq<Ball>>)
    ensures Prepend(p + q, r) == Prepend(p, Prepend(q, r))
  {
    if r.Success? {
      assert (p + q) + r.value == p + (q + r.value);
    }
  }

  /** What the index loop with in-place removal computes, by structure:
      each ball is stepped; a spent one is dropped and, because the list
      shifts under the iterator, the ball after it is passed over
      unstepped in this tick. */
  function SkipTick(balls: seq<Ball>, walls: seq<Wall>, bearing: (real, real) -> Vec): (r: Result<seq<Ball>>)
    requires WallsWellFormed(walls)
    ensures r.Success? ==> |r.value| <= |balls|
    decreases |balls|
  {
    if |balls| == 0 then Success([])
    else
      var b :- Step(balls[0], walls, bearing);
      if Spent(b) then
        if |balls| == 1 then Success([])
        else Prepend([balls[1]], SkipTick(balls[2..], walls, bearing))
      else Prepend([b], SkipTick(balls[1..], walls, bearing))
  }

  /** `on_update`: `for ball in ball_list`, step it, and `remove` it when it
      is spent. The iterator is an index that advances past the slot the
      removed ball vacated. */
  method Tick(balls: seq<Ball>, walls: seq<Wall>, bearing: (real, real) -> Vec) returns (r: Result<seq<Ball>>)
    requires WallsWellFormed(walls)
    ensures r == SkipTick(balls, walls, bearing)
  {
    var list := balls;
    var i := 0;
    ghost var j := 0;
    assert balls[j..] == balls && list[..i] == [];
    assert Prepend([], SkipTick(balls, walls, bearing)) == SkipTick(balls, walls, bearing) by {
      var r := SkipTick(balls, walls, bearing);
      if r.Success? { assert [] + r.value == r.value; }
    }
    while i < |list|
      invariant 0 <= j <= |balls|
      invariant i <= |list| + 1
      invariant i <= |list| ==> list[i..] == balls[j..]
      invariant i <= |list| ==> Prepend(list[..i], SkipTick(balls[j..], walls, bearing)) == SkipTick(balls, walls, bearing)
      invariant i == |list| + 1 ==> Success(list) == SkipTick(balls, walls, bearing)
      decreases |list| + 1 - i
    {
      ghost var rest := balls[j..];
      assert rest[0] == list[i];
      var res := Step(list[i], walls, bearing);
      if res.Failure? {
        return Failure(res.error);
      }
      var b := res.value;
      list := list[i := b];
      if Spent(b) {
        ghost var prefix := list[..i];
        ghost var tail := list[i + 1..];
        assert tail == rest[1..];
        list := list[..i] + list[i + 1..];
        assert list == prefix + tail;
        if |rest| == 1 {
          assert SkipTick(rest, walls, bearing) == Success([]);
          assert list == prefix;
          j := |balls|;
        } else {
          assert SkipTick(rest, walls, bearing) == Prepend([rest[1]], SkipTick(rest[2..], walls, bearing));
          assert rest[2..] == balls[j + 2..];
          assert list[i] == rest[1] && list[..i] == prefix;
          assert list[..i + 1] == prefix + [rest[1]];
          PrependAssoc(prefix, [rest[1]], SkipTick(balls[j + 2..], walls, bearing));
          j := j + 2;
        }
        i := i + 1;
      } else {
        assert SkipTick(rest, walls, bearing) == Prepend([b], SkipTick(rest[1..], walls, bearing));
        assert rest[1..] == balls[j + 1..];
        assert list[..i + 1] == list[..i] + [b];
        PrependAssoc(list[..i], [b], SkipTick(balls[j + 1..], walls, bearing));
        i := i + 1;
        j := j + 1;
      }
    }
    if i == |list| {
      assert list[..i] == list;
      assert balls[j..] == [];
      assert SkipTick(balls[j..], walls, bearing) == Success([]);
      assert list + [] == list;
    }
    return Success(list);
  }

  /** Mark-then-compact: every ball is stepped once and the spent ones are
      dropped afterwards. */
  function CompactTick(balls: seq<Ball>, walls: seq<Wall>, bearing: (real, real) -> Vec): (r: Result<seq<Ball>>)
    requires WallsWellFormed(walls)
    ensures r.Success? <==> forall k :: 0 <= k < |balls| ==> Step(balls[k], walls, bearing).Success?
    ensures r.Success? ==> |r.value| <= |balls|
    ensures r.Success? ==> forall x :: x in r.value ==> !Spent(x)
    ensures r.Success? ==> forall x :: x in r.value ==>
      exists k :: 0 <= k < |balls| && Step(balls[k], walls, bearing) == Success(x)
    ensures r.Success? ==> forall k :: 0 <= k < |balls| && !Spent(Step(balls[k], walls, bearing).value) ==>
      Step(balls[k], walls, bearing).value in r.value
    decreases |balls|
  {
    if |balls| == 0 then Success([])
    else
      var b :- Step(balls[0], walls, bearing);
      var rest :- CompactTick(balls[1..], walls, bearing);
      if Spent(b) then Success(rest) else Success([b] + rest)
  }

  /** The outcome of stepping each ball of the list on its own. */
  function Steps(balls: seq<Ball>, walls: seq<Wall>, bearing: (real, real) -> Vec): (r: seq<Result<Ball>>)
    requires WallsWellFormed(walls)
    ensures |r| == |balls| && forall k :: 0 <= k < |balls| ==> r[k] == Step(balls[k], walls, bearing)
  {
    seq(|balls|, k requires 0 <= k < |balls| => Step(balls[k], walls, bearing))
  }

  /** `idx` lists, in increasing order, the positions whose step results
      make up `out`, and it names every position whose step succeeded with
      a ball that is not spent: `out` holds each surviving ball once, in
      input order. */
  predicate KeptIndices(idx: seq<int>, out: seq<Ball>, steps: seq<Result<Ball>>) {
    && |idx| == |out|
    && (forall m :: 0 <= m < |idx| ==> 0 <= idx[m] < |steps| && steps[idx[m]] == Success(out[m]))
    && (forall m, n :: 0 <= m < n < |idx| ==> idx[m] < idx[n])
    && (forall k :: 0 <= k < |steps| && steps[k].Success? && !Spent(steps[k].value) ==> k in idx)
  }

  /** Positions into `s[1..]`, moved to positions into `s`. */
  function Shift(idx: seq<int>): (r: seq<int>)
    ensures |r| == |idx| && forall m :: 0 <= m < |idx| ==> r[m] == idx[m] + 1
  {
    seq(|idx|, m requires 0 <= m < |idx| => idx[m] + 1)
  }

  /** Indices kept from the tail of the step results, seen from the whole
      list: everything but the coverage of position 0 carries over. */
  lemma ShiftIndices(idx: seq<int>, out: seq<Ball>, steps: seq<Result<Ball>>)
    requires |steps| > 0 && KeptIndices(idx, out, steps[1..])
    ensures |Shift(idx)| == |out|
    ensures forall m :: 0 <= m < |idx| ==> 1 <= Shift(idx)[m] < |steps| && steps[Shift(idx)[m]] == Success(out[m])
    ensures forall m, n :: 0 <= m < n < |idx| ==> Shift(idx)[m] < Shift(idx)[n]
    ensures forall k :: 1 <= k < |steps| && steps[k].Success? && !Spent(steps[k].value) ==> k in Shift(idx)
  {
    var tail := steps[1..];
    var sh := Shift(idx);
    forall m | 0 <= m < |idx|
      ensures 1 <= sh[m] < |steps| && steps[sh[m]] == Success(out[m])
    {
      assert tail[idx[m]] == steps[sh[m]];
    }
    forall k | 1 <= k < |steps| && steps[k].Success? && !Spent(steps[k].value)
      ensures k in sh
    {
      assert tail[k - 1] == steps[k];
      var m :| 0 <= m < |idx| && idx[m] == k - 1;
      assert sh[m] == k;
    }
  }

  /** A spent first ball is dropped: the shifted indices cover the list. */
  lemma DropFirst(idx: seq<int>, out: seq<Ball>, steps: seq<Result<Ball>>)
    requires |steps| > 0 && steps[0].Success? && Spent(steps[0].value)
    requires KeptIndices(idx, out, steps[1..])
    ensures KeptIndices(Shift(idx), out, steps)
  {
    ShiftIndices(idx, out, steps);
  }

  /** A surviving first ball is kept in front, at position 0. */
  lemma KeepFirst(idx: seq<int>, out: seq<Ball>, steps: seq<Result<Ball>>)
    requires |steps| > 0 && steps[0].Success? && !Spent(steps[0].value)
    requires KeptIndices(idx, out, steps[1..])
    ensures KeptIndices([0] + Shift(idx), [steps[0].value] + out, steps)
  {
    ShiftIndices(idx, out, steps);
    var sh := Shift(idx);
    var idx2 := [0] + sh;
    var out2 := [steps[0].value] + out;
    forall m | 1 <= m < |idx2|
      ensures idx2[m] == sh[m - 1] && out2[m] == out[m - 1]
    {
    }
    forall m, n | 0 <= m < n < |idx2|
      ensures idx2[m] < idx2[n]
    {
      if m > 0 { assert sh[m - 1] < sh[n - 1]; }
    }
    forall k | 0 <= k < |steps| && steps[k].Success? && !Spent(steps[k].value)
      ensures k in idx2
    {
      if k == 0 {
        assert idx2[0] == 0;
      } else {
        var m :| 0 <= m < |sh| && sh[m] == k;
        assert idx2[m + 1] == k;
      }
    }
  }

  /** The corrected tick keeps every surviving ball exactly once and in the
      order of the input list. */
  lemma {:induction false} CompactTickOrder(balls: seq<Ball>, walls: seq<Wall>, bearing: (real, real) -> Vec)
    requires WallsWellFormed(walls)
    requires CompactTick(balls, walls, bearing).Success?
    ensures exists idx :: KeptIndices(idx, CompactTick(balls, walls, bearing).value, Steps(balls, walls, bearing))
    decreases |balls|
  {
    var steps := Steps(balls, walls, bearing);
    var out := CompactTick(balls, walls, bearing).value;
    if |balls| == 0 {
      assert KeptIndices([], out, steps);
    } else {
      var rest := CompactTick(balls[1..], walls, bearing).value;
      CompactTickOrder(balls[1..], walls, bearing);
      assert Steps(balls[1..], walls, bearing) == steps[1..];
      var idx :| KeptIndices(idx, rest, steps[1..]);
      if !Spent(steps[0].value) {
        KeepFirst(idx, rest, steps);
        assert out == [steps[0].value] + rest;
        assert KeptIndices([0] + Shift(idx), out, steps);
      } else {
        DropFirst(idx, rest, steps);
        assert out == rest;
        assert KeptIndices(Shift(idx), out, steps);
      }
    }
  }

  /** A ball that belongs in the active list: known band, 8-bit colour,
      not yet spent. */
  predicate BallOk(b: Ball) {
    IsBand(b.freq) && InRange(b.color) && !Spent(b)
  }

  /** The wall list as the program keeps it: at least the four edges,
      planar walls built by `Wall.__init__`, and valid profiles. */
  predicate WallsOk(walls: seq<Wall>) {
    && |walls| >= EdgeCount
    && WallsWellFormed(walls)
    && forall k :: 0 <= k < |walls| ==> ValidProfile(walls[k].absorb)
  }

  /** Without any retirement in the tick, the skipping loop and the
      mark-then-compact pass agree. */
  lemma {:induction false} SkipTickWithoutRetirement(balls: seq<Ball>, walls: seq<Wall>, bearing: (real, real) -> Vec)
    requires WallsWellFormed(walls)
    requires forall k :: 0 <= k < |balls| ==>
      Step(balls[k], walls, bearing).Success? && !Spent(Step(balls[k], walls, bearing).value)
    ensures SkipTick(balls, walls, bearing) == CompactTick(balls, walls, bearing)
    decreases |balls|
  {
    if |balls| > 0 {
      assert forall k :: 0 <= k < |balls| - 1 ==> balls[1..][k] == balls[k + 1];
      SkipTickWithoutRetirement(balls[1..], walls, bearing);
    }
  }

  /** The tick keeps the active list clean: from valid walls and active
      balls it succeeds and every ball it keeps is still active, the
      stepped ones and the passed-over ones alike. */
  lemma {:induction false} SkipTickKeepsBallsOk(balls: seq<Ball>, walls: seq<Wall>, bearing: (real, real) -> Vec)
    requires WallsOk(walls)
    requires forall k :: 0 <= k < |balls| ==> BallOk(balls[k])
    ensures SkipTick(balls, walls, bearing).Success?
    ensures forall k :: 0 <= k < |SkipTick(balls, walls, bearing).value| ==> BallOk(SkipTick(balls, walls, bearing).value[k])
    decreases |balls|
  {
    if |balls| > 0 {
      StepDecays(balls[0], walls, bearing);
      var b := Step(balls[0], walls, bearing).value;
      if Spent(b) {
        if |balls| > 1 {
          assert forall k :: 0 <= k < |balls| - 2 ==> balls[2..][k] == balls[k + 2];
          SkipTickKeepsBallsOk(balls[2..], walls, bearing);
        }
      } else {
        assert forall k :: 0 <= k < |balls| - 1 ==> balls[1..][k] == balls[k + 1];
        SkipTickKeepsBallsOk(balls[1..], walls, bearing);
      }
    }
  }

  /** The mark-then-compact pass keeps the active list clean too, and
      every kept ball is one that was stepped in this tick. */
  lemma CompactTickKeepsBallsOk(balls: seq<Ball>, walls: seq<Wall>, bearing: (real, real) -> Vec)
    requires WallsOk(walls)
    requires forall k :: 0 <= k < |balls| ==> BallOk(balls[k])
    ensures CompactTick(balls, walls, bearing).Success?
    ensures forall x :: x in CompactTick(balls, walls, bearing).value ==> BallOk(x)
  {
    forall k | 0 <= k < |balls|
      ensures Step(balls[k], walls, bearing).Success? && InRange(Step(balls[k], walls, bearing).value.color)
    {
      StepDecays(balls[k], walls, bearing);
    }
  }

  /** A spent ball makes the loop pass over its successor: the successor
      stays in the list exactly as it was. */
  lemma RetireSkipsNext(balls: seq<Ball>, walls: seq<Wall>, bearing: (real, real) -> Vec)
    requires WallsWellFormed(walls) && |balls| >= 2
    requires Step(balls[0], walls, bearing).Success? && Spent(Step(balls[0], walls, bearing).value)
    requires SkipTick(balls, walls, bearing).Success?
    ensures SkipTick(balls, walls, bearing).value[0] == balls[1]
  {
  }

  /** The four unit normals of the window edges. */
  predicate AxisUnit(n: Vec) {
    n == Vec(1.0, 0.0) || n == Vec(-1.0, 0.0) || n == Vec(0.0, 1.0) || n == Vec(0.0, -1.0)
  }

  /** One window edge, built directly: a vertical edge `x = s.x` keeps the
      normal (1, 0) only when the source is strictly to its right, a
      horizontal edge `y = s.y` flips the normal (0, 1) only when the source
      is strictly below it. The normal has length 1, so `d` is exactly 1.
      `EdgeWallIsMakeWall` shows this is the wall the general constructor
      builds. */
  function EdgeWall(s: Vec, e: Vec, src: Vec, absorb: Profile): (w: Wall)
    requires s.x == e.x || s.y == e.y
    ensures w.Planar? && w.start == s && w.end == e && w.absorb == absorb
    ensures w.d == 1.0 && w.unit == w.normal && AxisUnit(w.normal)
  {
    if s.x == e.x then
      if src.x > s.x then Planar(s, e, absorb, Vec(1.0, 0.0), s.x, 1.0, Vec(1.0, 0.0))
      else Planar(s, e, absorb, Vec(-1.0, 0.0), -s.x, 1.0, Vec(-1.0, 0.0))
    else
      if src.y < s.y then Planar(s, e, absorb, Vec(0.0, -1.0), -s.y, 1.0, Vec(0.0, -1.0))
      else Planar(s, e, absorb, Vec(0.0, 1.0), s.y, 1.0, Vec(0.0, 1.0))
  }

  /** The general wall constructor, given `d = 1`, builds exactly the
      edge wall for every horizontal or vertical segment and every source,
      including a source on the edge's line. */
  lemma EdgeWallIsMakeWall(s: Vec, e: Vec, src: Vec, absorb: Profile)
    requires s.x == e.x || s.y == e.y
    ensures NormSq(OrientedLine(s, e, src).normal) == 1.0
    ensures EdgeWall(s, e, src, absorb) == MakeWall(s, e, src, absorb, 1.0)
  {
    AxisAlignedUnit(s, e, src);
    EdgeLine(s, e, src, absorb);
  }

  /** The edge wall's line is the oriented line of its segment. */
  lemma EdgeLine(s: Vec, e: Vec, src: Vec, absorb: Profile)
    requires s.x == e.x || s.y == e.y
    ensures Line(EdgeWall(s, e, src, absorb).normal, EdgeWall(s, e, src, absorb).c) == OrientedLine(s, e, src)
  {
    if s.x == e.x {
      VerticalEdgeLine(s, e, src, absorb);
    } else {
      HorizontalEdgeLine(s, e, src, absorb);
    }
  }

  /** `EdgeLine` for a vertical edge. */
  lemma VerticalEdgeLine(s: Vec, e: Vec, src: Vec, absorb: Profile)
    requires s.x == e.x
    ensures Line(EdgeWall(s, e, src, absorb).normal, EdgeWall(s, e, src, absorb).c) == OrientedLine(s, e, src)
  {
    if src.x == s.x {
      VerticalOnLine(s, e, src);
    } else {
      AxisOrientedLine(s, e, src, OrientedLine(s, e, src));
    }
  }

  /** `EdgeLine` for a horizontal edge. */
  lemma HorizontalEdgeLine(s: Vec, e: Vec, src: Vec, absorb: Profile)
    requires s.x != e.x && s.y == e.y
    ensures Line(EdgeWall(s, e, src, absorb).normal, EdgeWall(s, e, src, absorb).c) == OrientedLine(s, e, src)
  {
    if src.y == s.y {
      HorizontalOnLine(s, e, src);
    } else {
      AxisOrientedLine(s, e, src, OrientedLine(s, e, src));
    }
  }

  /** A source on a vertical edge's line flips its normal. */
  lemma VerticalOnLine(s: Vec, e: Vec, src: Vec)
    requires s.x == e.x && src.x == s.x
    ensures OrientedLine(s, e, src) == Line(Vec(-1.0, 0.0), -s.x)
  {
    assert Flips(s, e, src);
    AxisRawLine(s, e);
  }

  /** A source on a horizontal edge's line keeps its normal. */
  lemma HorizontalOnLine(s: Vec, e: Vec, src: Vec)
    requires s.x != e.x && s.y == e.y && src.y == s.y
    ensures OrientedLine(s, e, src) == Line(Vec(0.0, 1.0), s.y)
  {
    HorizontalSign(s, e, src);
    AxisRawLine(s, e);
    assert Side(RawLine(s, e), src) == 0.0;
    assert !Flips(s, e, src);
  }

  /** A horizontal or vertical wall's oriented normal has length 1. */
  lemma AxisAlignedUnit(s: Vec, e: Vec, src: Vec)
    requires s.x == e.x || s.y == e.y
    ensures NormSq(OrientedLine(s, e, src).normal) == 1.0
  {
    OrientedLineCoefficients(s, e, src);
    if s.x != e.x {
      assert -((e.y - s.y) / (e.x - s.x)) == 0.0;
    }
  }

  const Corner0 := Vec(0.0, 0.0)
  const Corner1 := Vec(ScreenWidth, 0.0)
  const Corner2 := Vec(ScreenWidth, ScreenHeight)
  const Corner3 := Vec(0.0, ScreenHeight)

  /** The four window edges: bottom, right, top, left. */
  function EdgeWalls(src: Vec, absorb: Profile): (r: seq<Wall>)
    ensures |r| == EdgeCount
    ensures forall k :: 0 <= k < |r| ==> r[k].absorb == absorb && r[k].Planar? && r[k].d == 1.0
  {
    [EdgeWall(Corner0, Corner1, src, absorb), EdgeWall(Corner1, Corner2, src, absorb),
     EdgeWall(Corner2, Corner3, src, absorb), EdgeWall(Corner3, Corner0, src, absorb)]
  }

  /** The edge walls satisfy the wall invariant. */
  lemma EdgeWallsWellFormed(src: Vec, absorb: Profile)
    ensures WallsWellFormed(EdgeWalls(src, absorb))
  {
    var r := EdgeWalls(src, absorb);
    forall k | 0 <= k < |r| ensures WellFormed(r[k]) {
      assert r[k].unit == r[k].normal && AxisUnit(r[k].normal);
    }
  }

  /** The oriented line is the raw one when the source is strictly on its
      positive side, and the flipped one when strictly on its negative side. */
  lemma OrientedLineChoice(s: Vec, e: Vec, src: Vec)
    ensures Side(RawLine(s, e), src) > 0.0 ==> OrientedLine(s, e, src) == RawLine(s, e)
    ensures Side(RawLine(s, e), src) < 0.0 ==> OrientedLine(s, e, src) == FlipLine(RawLine(s, e))
  {
    OrientationCorrect(s, e, src);
  }

  /** A horizontal wall's raw line is `y = s.y`; a vertical one's `x = s.x`. */
  lemma AxisRawLine(s: Vec, e: Vec)
    requires s.x == e.x || s.y == e.y
    ensures s.x == e.x ==> RawLine(s, e) == Line(Vec(1.0, 0.0), s.x)
    ensures s.x != e.x ==> RawLine(s, e) == Line(Vec(0.0, 1.0), s.y)
  {
    if s.x != e.x {
      assert -((e.y - s.y) / (e.x - s.x)) == 0.0;
    }
  }

  /** The edge normal for a source on the positive or negative side of
      the raw axis-aligned line. */
  lemma AxisOrientedLine(s: Vec, e: Vec, src: Vec, l: Line)
    requires s.x == e.x || s.y == e.y
    requires l == OrientedLine(s, e, src)
    ensures s.x == e.x && src.x > s.x ==> l == Line(Vec(1.0, 0.0), s.x)
    ensures s.x == e.x && src.x < s.x ==> l == Line(Vec(-1.0, 0.0), -s.x)
    ensures s.x != e.x && src.y > s.y ==> l == Line(Vec(0.0, 1.0), s.y)
    ensures s.x != e.x && src.y < s.y ==> l == Line(Vec(0.0, -1.0), -s.y)
  {
    AxisRawLine(s, e);
    OrientedLineChoice(s, e, src);
  }

  /** With the source strictly inside the window every edge normal points
      into the room. */
  lemma EdgeWallsInward(src: Vec, absorb: Profile)
    requires 0.0 < src.x < ScreenWidth && 0.0 < src.y < ScreenHeight
    ensures EdgeWalls(src, absorb) == [
      Planar(Corner0, Corner1, absorb, Vec(0.0, 1.0), 0.0, 1.0, Vec(0.0, 1.0)),
      Planar(Corner1, Corner2, absorb, Vec(-1.0, 0.0), -ScreenWidth, 1.0, Vec(-1.0, 0.0)),
      Planar(Corner2, Corner3, absorb, Vec(0.0, -1.0), -ScreenHeight, 1.0, Vec(0.0, -1.0)),
      Planar(Corner3, Corner0, absorb, Vec(1.0, 0.0), 0.0, 1.0, Vec(1.0, 0.0))]
  {
  }

  /** The scene invariant the program keeps between ticks. */
  predicate SceneOk(s: Scene) {
    && s.source.range != 0.0
    && IsBand(s.freq)
    && WallsOk(s.walls)
    && ValidProfile(s.edgeAbs)
    && forall k :: 0 <= k < |s.balls| ==> BallOk(s.balls[k])
  }

  /** `setup`: a source at least 5 from every border and two different
      pulse angles; otherwise the prompt asks again, modelled as a failure.
      The edges start as smooth concrete and the band at 125 Hz. */
  function Setup(x: int, y: int, a0: int, a1: int, pi: real): (r: Result<Scene>)
    ensures r.Success? <==> 5 <= x <= 495 && 5 <= y <= 495 && a0 != a1
    ensures (x < 5 || y < 5 || x > 495 || y > 495) ==> r == Failure(SourceOutOfBounds)
    ensures r.Success? ==> SceneOk(r.value) && r.value.balls == [] && |r.value.walls| == EdgeCount
    ensures 5 <= x <= 495 && 5 <= y <= 495 && a0 == a1 ==> r == Failure(InvalidAngularSpan)
    ensures r.Success? ==> r.value.source.pos == Vec(x as real, y as real)
    ensures r.Success? ==> r.value.source == MakeSource(Vec(x as real, y as real), a0, a1, pi).value
    ensures r.Success? ==> r.value.walls == EdgeWalls(r.value.source.pos, DefaultEdgeAbs)
    ensures r.Success? ==> r.value.edgeAbs == DefaultEdgeAbs && r.value.freq == DefaultFreq
  {
    if x < 5 || y < 5 || x > 500 - 5 || y > 500 - 5 then Failure(SourceOutOfBounds)
    else
      // equal angles are refused by the prompt and by `MakeSource` alike
      var src :- MakeSource(Vec(x as real, y as real), a0, a1, pi);
      var walls := EdgeWalls(src.pos, DefaultEdgeAbs);
      EdgeWallsWellFormed(src.pos, DefaultEdgeAbs);
      assert SetAbsorb(0) == Success(DefaultEdgeAbs);
      Success(Scene(src, walls, [], DefaultEdgeAbs, DefaultFreq))
  }

  /** `set_edge_abs`: the new profile becomes the edge material and the
      profile of the first four walls. */
  function SetEdgeAbs(s: Scene, p: Profile): (r: Scene)
    ensures r.edgeAbs == p && r.source == s.source && r.balls == s.balls && r.freq == s.freq
    ensures |r.walls| == |s.walls|
    ensures forall k :: 0 <= k < |s.walls| && k < EdgeCount ==> r.walls[k] == s.walls[k].(absorb := p)
    ensures forall k :: EdgeCount <= k < |s.walls| ==> r.walls[k] == s.walls[k]
  {
    var walls := seq(|s.walls|, k requires 0 <= k < |s.walls| =>
      if k < EdgeCount then s.walls[k].(absorb := p) else s.walls[k]);
    s.(edgeAbs := p, walls := walls)
  }

  /** After `set_edge_abs`, every edge bounce uses the new profile, every
      interior wall keeps its own, and the last replacement wins. */
  lemma SetEdgeAbsRates(s: Scene, p: Profile, q: Profile, f: int)
    ensures forall k: nat :: k < EdgeCount && k < |s.walls| ==> WallRate(SetEdgeAbs(s, p).walls, k, f) == CurrentAbs(p, f)
    ensures forall k: nat :: EdgeCount <= k ==> WallRate(SetEdgeAbs(s, p).walls, k, f) == WallRate(s.walls, k, f)
    ensures SetEdgeAbs(SetEdgeAbs(s, p), q) == SetEdgeAbs(s, q)
  {
    var r1 := SetEdgeAbs(SetEdgeAbs(s, p), q);
    var r2 := SetEdgeAbs(s, q);
    assert r1.walls == r2.walls;
  }

  /** Replacing the edge material with a valid profile keeps the scene
      invariant. */
  lemma SetEdgeAbsKeepsSceneOk(s: Scene, p: Profile)
    requires SceneOk(s) && ValidProfile(p)
    ensures SceneOk(SetEdgeAbs(s, p))
  {
    var r := SetEdgeAbs(s, p);
    forall k | 0 <= k < |r.walls|
      ensures WellFormed(r.walls[k]) && ValidProfile(r.walls[k].absorb)
    {
      assert WellFormed(s.walls[k]);
    }
  }

  /** Pressing space: emit a pulse of the current band. */
  function EmitPulse(s: Scene, pi: real, heading: real -> Vec): (r: Result<Scene>)
    requires s.source.range != 0.0
    ensures r.Success? <==> IsBand(s.freq)
    ensures r.Success? ==> r.value.walls == s.walls && |r.value.balls| == |s.balls| + RayCount
    ensures r.Success? ==> r.value.balls[..|s.balls|] == s.balls
    ensures r.Success? ==> r.value == s.(balls := MakeBalls(s.balls, s.freq, s.source, pi, heading).value)
    ensures SceneOk(s) ==> r.Success? && SceneOk(r.value)
  {
    var balls :- MakeBalls(s.balls, s.freq, s.source, pi, heading);
    assert forall k :: |s.balls| <= k < |balls| ==> balls[k] == balls[|s.balls| + (k - |s.balls|)];
    Success(s.(balls := balls))
  }

  /** Appending an interior wall. */
  function AddWall(s: Scene, w: Wall): (r: Scene)
    ensures |r.walls| == |s.walls| + 1 && r.walls[..|s.walls|] == s.walls && r.walls[|s.walls|] == w
    ensures r.balls == s.balls && r.source == s.source && r.edgeAbs == s.edgeAbs && r.freq == s.freq
    ensures SceneOk(s) && WellFormed(w) && ValidProfile(w.absorb) ==> SceneOk(r)
  {
    s.(walls := s.walls + [w])
  }

  /** One tick of the scene as the original performs it. */
  method TickScene(s: Scene, bearing: (real, real) -> Vec) returns (r: Result<Scene>)
    requires WallsWellFormed(s.walls)
    ensures r.Success? <==> SkipTick(s.balls, s.walls, bearing).Success?
    ensures r.Success? ==> r.value == s.(balls := SkipTick(s.balls, s.walls, bearing).value)
    ensures SceneOk(s) ==> r.Success? && SceneOk(r.value)
  {
    var balls := Tick(s.balls, s.walls, bearing);
    if SceneOk(s) {
      SkipTickKeepsBallsOk(s.balls, s.walls, bearing);
    }
    if balls.Failure? {
      return Failure(balls.error);
    }
    return Success(s.(balls := balls.value));
  }

  /** Fully absorbing edge walls, as `EdgeWalls(src, [1.0, ...])` builds
      for any source. */
  predicate AbsorbingEdges(walls: seq<Wall>) {
    && |walls| == EdgeCount
    && WallsWellFormed(walls)
    && forall k :: 0 <= k < |walls| ==> walls[k].absorb == [1.0, 1.0, 1.0, 1.0, 1.0, 1.0]
  }

  /** The window edges made fully absorbing. */
  lemma EdgeWallsAbsorbing(src: Vec)
    ensures AbsorbingEdges(EdgeWalls(src, [1.0, 1.0, 1.0, 1.0, 1.0, 1.0]))
  {
    EdgeWallsWellFormed(src, [1.0, 1.0, 1.0, 1.0, 1.0, 1.0]);
  }

  /** The removal skip on a concrete pair of balls: with fully absorbing
      edges, a ball that dies on the bottom edge makes the loop pass over
      the ball behind it, which the mark-then-compact pass would have
      moved. */
  lemma SkipTickPassesOverNext(walls: seq<Wall>, bearing: (real, real) -> Vec)
    requires AbsorbingEdges(walls)
    ensures var dying := Ball(Vec(250.0, 3.0), Vec(0.0, -1.0), 125, Color(255, 0, 0));
      var next := Ball(Vec(100.0, 100.0), Vec(1.0, 0.0), 125, Color(255, 0, 0));
      && SkipTick([dying, next], walls, bearing) == Success([next])
      && CompactTick([dying, next], walls, bearing) == Success([next.(pos := Vec(101.0, 100.0))])
  {
    var dying := Ball(Vec(250.0, 3.0), Vec(0.0, -1.0), 125, Color(255, 0, 0));
    var next := Ball(Vec(100.0, 100.0), Vec(1.0, 0.0), 125, Color(255, 0, 0));
    var moved := Integrate(dying);
    assert moved.pos == Vec(250.0, 2.0);
    EdgesEffect(moved, walls);
    assert CurrentAbs(walls[0].absorb, 125) == Success(1.0);
    assert AbsColor(1.0, moved.color) == Black;
    assert EdgeColor(moved, walls) == Black;
    var bounced := Edges(moved, walls).value;
    assert Interior(bounced, walls, EdgeCount, bearing) == Success(bounced);
    assert Step(dying, walls, bearing) == Success(bounced);
    var moved2 := Integrate(next);
    EdgesNoHit(moved2, walls);
    assert Interior(moved2, walls, EdgeCount, bearing) == Success(moved2);
    assert Step(next, walls, bearing) == Success(moved2);
    assert moved2 == next.(pos := Vec(101.0, 100.0));
    assert [dying, next][2..] == [];
    assert [dying, next][1..] == [next];
    assert SkipTick([], walls, bearing) == Success([]);
    assert SkipTick([dying, next], walls, bearing) == Prepend([next], Success([]));
    assert [next][1..] == [];
    assert CompactTick([], walls, bearing) == Success([]);
    assert !Spent(moved2) && [moved2] + [] == [moved2];
    assert CompactTick([next], walls, bearing) == Success([moved2]);
    assert Spent(bounced);
    assert [next] + [] == [next];
    assert SkipTick([dying, next], walls, bearing) == Success([next]);
    assert CompactTick([dying, next], walls, bearing) == Success([moved2]);
  }
}

=== FILE: sources.dfy ===
/** The sound source and the pulse of eleven rays it emits. Angles are in
    degrees from the positive vertical, clockwise; `pi` is taken as a
    parameter and the heading of a ray, (sin, cos) of its angle, as a
    function parameter. */
module Sources {
  import opened Results
  import opened Vectors
  import opened Absorption
  import opened Particles

  /** `range` is 1800 / (a1 - a0) and `minAngle` is a0 in radians. */
  datatype Source = Source(pos: Vec, range: real, minAngle: real)

  /** Rays per pulse. */
  const RayCount: nat := 11

  /** `Source.__init__`: equal pulse angles divide by zero. */
  function MakeSource(pos: Vec, a0: int, a1: int, pi: real): (r: Result<Source>)
    ensures r.Success? <==> a0 != a1
    ensures r.Failure? ==> r.error == InvalidAngularSpan
    ensures r.Success? ==> r.value.pos == pos && r.value.range != 0.0
    ensures r.Success? ==> r.value.minAngle == a0 as real * pi / 180.0
  {
    if a1 - a0 == 0 then Failure(InvalidAngularSpan)
    else Success(Source(pos, 1800.0 / (a1 - a0) as real, a0 as real * pi / 180.0))
  }

  /** Angle in radians of ray `i` of a pulse. */
  function RayAngle(s: Source, i: nat, pi: real): real
    requires s.range != 0.0
  {
    (i as real * pi / s.range) + s.minAngle
  }

  /** Ray `i` leaves at `a0 + i * (a1 - a0) / 10` degrees: ray 0 at `a0`,
      ray 10 at `a1`, in equal steps. */
  lemma RayAngleClosedForm(pos: Vec, a0: int, a1: int, pi: real, i: nat)
    requires a0 != a1
    ensures var s := MakeSource(pos, a0, a1, pi).value;
      RayAngle(s, i, pi) == (a0 as real + i as real * (a1 - a0) as real / 10.0) * pi / 180.0
  {
    var s := MakeSource(pos, a0, a1, pi).value;
    var span := (a1 - a0) as real;
    assert s.range == 1800.0 / span;
    assert s.range * span == 1800.0;
    var t := i as real * pi;
    assert t / s.range == t * span / 1800.0 by {
      assert (t * span / 1800.0) * s.range == t * (span * s.range) / 1800.0;
    }
  }

  /** The pulse spans exactly the configured angles, evenly spaced. */
  lemma PulseEndpoints(pos: Vec, a0: int, a1: int, pi: real)
    requires a0 != a1
    ensures var s := MakeSource(pos, a0, a1, pi).value;
      && RayAngle(s, 0, pi) == a0 as real * pi / 180.0
      && RayAngle(s, RayCount - 1, pi) == a1 as real * pi / 180.0
      && forall i: nat :: i < RayCount - 1 ==>
           RayAngle(s, i + 1, pi) - RayAngle(s, i, pi) == (a1 - a0) as real * pi / 1800.0
  {
    var s := MakeSource(pos, a0, a1, pi).value;
    RayAngleClosedForm(pos, a0, a1, pi, 0);
    RayAngleClosedForm(pos, a0, a1, pi, 10);
    forall i: nat | i < RayCount - 1
      ensures RayAngle(s, i + 1, pi) - RayAngle(s, i, pi) == (a1 - a0) as real * pi / 1800.0
    {
      RayAngleClosedForm(pos, a0, a1, pi, i);
      RayAngleClosedForm(pos, a0, a1, pi, i + 1);
    }
  }

  /** `make_balls`: append eleven balls at the source with band `freq`, its
      initial colour and heading `heading(angle)` of ray `i`'s angle. An
      unknown band raises before anything is appended. */
  function MakeBalls(balls: seq<Ball>, freq: int, s: Source, pi: real, heading: real -> Vec): (r: Result<seq<Ball>>)
    requires s.range != 0.0
    ensures r.Success? <==> IsBand(freq)
    ensures r.Failure? ==> r.error == InvalidBand
    ensures r.Success? ==> |r.value| == |balls| + RayCount && r.value[..|balls|] == balls
    ensures r.Success? ==> forall i :: 0 <= i < RayCount ==>
      var b := r.value[|balls| + i];
      && b.pos == s.pos && b.freq == freq
      && b.color == InitialColor(freq).value && b.color != Black
      && b.vel == heading(RayAngle(s, i, pi))
  {
    var color :- InitialColor(freq);
    var pulse := seq(RayCount, i requires 0 <= i => Ball(s.pos, heading(RayAngle(s, i, pi)), freq, color));
    Success(balls + pulse)
  }
}

=== FILE: vectors.dfy ===
/** Exact two-dimensional vectors over the reals; the numpy arrays of the
    original are idealised as real pairs. */
module Vectors {

  datatype Vec = Vec(x: real, y: real)

  function Add(u: Vec, v: Vec): Vec {
    Vec(u.x + v.x, u.y + v.y)
  }

  function Sub(u: Vec, v: Vec): Vec {
    Vec(u.x - v.x, u.y - v.y)
  }

  function Scale(k: real, v: Vec): Vec {
    Vec(k * v.x, k * v.y)
  }

  function Dot(u: Vec, v: Vec): real {
    u.x * v.x + u.y * v.y
  }

  function NormSq(v: Vec): real {
    Dot(v, v)
  }

  /** The direction along a line whose normal is `u`. */
  function Perp(u: Vec): Vec {
    Vec(-u.y, u.x)
  }

  predicate IsUnit(u: Vec) {
    NormSq(u) == 1.0
  }

  /** Specular reflection `v - 2 (u . v) u` of a velocity `v` off a surface
      with normal `u`. */
  function Reflect(v: Vec, u: Vec): (r: Vec)
    ensures Dot(r, Perp(u)) == Dot(v, Perp(u))
    ensures IsUnit(u) ==> Dot(r, u) == -Dot(v, u)
    ensures IsUnit(u) ==> NormSq(r) == NormSq(v)
  {
    var k := Dot(u, v);
    Sub(v, Scale(2.0 * k, u))
  }

  /** Reflecting twice off the same unit normal restores the velocity. */
  lemma ReflectInvolution(v: Vec, u: Vec)
    requires IsUnit(u)
    ensures Reflect(Reflect(v, u), u) == v
  {
    var r := Reflect(v, u);
    assert Dot(u, r) == -Dot(u, v);
  }

  /** A velocity along the normal is sent straight back. */
  lemma ReflectHeadOn(t: real, u: Vec)
    requires IsUnit(u)
    ensures Reflect(Scale(t, u), u) == Scale(-t, u)
  {
    assert Dot(u, Scale(t, u)) == t * NormSq(u);
  }
}

=== FILE: walls.dfy ===
/** Boundary geometry: a planar wall's implicit line `a*x + b*y = c`,
    oriented toward the sound source, and the circular wall. The square
    root that normalises the normal is an input `d` with `d > 0` and
    `d * d == a*a + b*b`. */
module Walls {
  import opened Vectors
  import opened Absorption

  /** Implicit line `normal . p == c`. */
  datatype Line = Line(normal: Vec, c: real)

  datatype Wall =
    | Planar(start: Vec, end: Vec, absorb: Profile, normal: Vec, c: real, d: real, unit: Vec)
    | Circular(center: Vec, radius: real, absorb: Profile)

  /** Slope factor of the perpendicular; a horizontal segment uses a large
      sentinel instead of dividing by zero. */
  const HorizontalSentinel: real := 9999999999.0

  /** Signed side of `p` relative to a line: positive on the normal's side. */
  function Side(l: Line, p: Vec): real {
    Dot(l.normal, p) - l.c
  }

  function FlipLine(l: Line): Line {
    Line(Scale(-1.0, l.normal), -l.c)
  }

  /** The line before orientation: (1, 0, x) for a vertical segment,
      (-dy/dx, 1, a*x0 + y0) otherwise. */
  function RawLine(s: Vec, e: Vec): Line {
    var xDif := e.x - s.x;
    var yDif := e.y - s.y;
    if xDif == 0.0 then Line(Vec(1.0, 0.0), s.x)
    else
      var a := -(yDif / xDif);
      Line(Vec(a, 1.0), a * s.x + s.y)
  }

  /** The vector from the wall line toward the source that decides the
      orientation: for a vertical segment the horizontal offset of the
      source, otherwise the source minus the `Foot` computed with the
      wall's slope `m` and the perpendicular factor `mNorm`. */
  function SourceVector(s: Vec, e: Vec, src: Vec): Vec {
    var xDif := e.x - s.x;
    var yDif := e.y - s.y;
    if xDif == 0.0 then Vec(src.x - s.x, 0.0)
    else
      var m := yDif / xDif;
      var mNorm := if yDif != 0.0 then xDif / yDif else HorizontalSentinel;
      DenomNonZero(m, mNorm, xDif, yDif);
      Sub(src, Foot(m, mNorm, e, src))
  }

  /** Intersection of the wall line through `e` with slope `m` and the line
      through `src` with slope `-mNorm`. */
  function Foot(m: real, mNorm: real, e: Vec, src: Vec): Vec
    requires mNorm + m != 0.0
  {
    var xIntersect := ((m * e.x) - e.y + src.y + (mNorm * src.x)) / (mNorm + m);
    var yIntersect := (m * (xIntersect - e.x)) + e.y;
    Vec(xIntersect, yIntersect)
  }

  /** `mNorm + m` is never zero over the reals. */
  lemma DenomNonZero(m: real, mNorm: real, xDif: real, yDif: real)
    requires xDif != 0.0 && m == yDif / xDif
    requires mNorm == if yDif != 0.0 then xDif / yDif else HorizontalSentinel
    ensures mNorm + m != 0.0
  {
    if yDif != 0.0 {
      assert m * xDif == yDif;
      assert mNorm * yDif == xDif;
      MulInverse(m, mNorm, xDif, yDif);
      assert mNorm * (mNorm + m) == mNorm * mNorm + 1.0;
    }
  }

  /** Whether the original negates the line: the source vector points down,
      or for a vertical segment the source is not right of it. */
  predicate Flips(s: Vec, e: Vec, src: Vec) {
    var v := SourceVector(s, e, src);
    v.y < 0.0 || (e.x - s.x == 0.0 && v.x <= 0.0)
  }

  /** The oriented line of a wall from `s` to `e` seen from `src`. */
  function OrientedLine(s: Vec, e: Vec, src: Vec): (l: Line)
    ensures Side(l, src) >= 0.0
    ensures Side(l, s) == 0.0 && Side(l, e) == 0.0
    ensures l == RawLine(s, e) || l == FlipLine(RawLine(s, e))
  {
    OrientationCorrect(s, e, src);
    var raw := RawLine(s, e);
    if Flips(s, e, src) then FlipLine(raw) else raw
  }

  /** The orientation test flips exactly when the source lies strictly on
      the negative side of the raw line (or, for a vertical wall, on it). */
  lemma OrientationCorrect(s: Vec, e: Vec, src: Vec)
    ensures e.x - s.x != 0.0 ==> (Flips(s, e, src) <==> Side(RawLine(s, e), src) < 0.0)
    ensures e.x - s.x == 0.0 ==> (Flips(s, e, src) <==> Side(RawLine(s, e), src) <= 0.0)
    ensures Side(RawLine(s, e), s) == 0.0 && Side(RawLine(s, e), e) == 0.0
  {
    EndpointsOnRawLine(s, e);
    if e.x - s.x != 0.0 {
      if e.y - s.y == 0.0 {
        HorizontalSign(s, e, src);
      } else {
        FootSign(s, e, src);
      }
    } else {
      assert SourceVector(s, e, src) == Vec(src.x - s.x, 0.0);
      assert Side(RawLine(s, e), src) == 1.0 * src.x + 0.0 * src.y - s.x;
    }
  }

  /** Both endpoints satisfy the raw line equation. */
  lemma EndpointsOnRawLine(s: Vec, e: Vec)
    ensures Side(RawLine(s, e), s) == 0.0 && Side(RawLine(s, e), e) == 0.0
  {
    var xDif := e.x - s.x;
    if xDif != 0.0 {
      var m := (e.y - s.y) / xDif;
      assert m * xDif == e.y - s.y;
      assert Side(RawLine(s, e), e) == e.y - s.y - m * xDif;
    }
  }

  /** For a horizontal segment the sentinel only perturbs the foot's
      x-coordinate; its y-coordinate is the wall's, so the source vector's
      y-component is the source's height above the wall. */
  lemma HorizontalSign(s: Vec, e: Vec, src: Vec)
    requires e.x - s.x != 0.0 && e.y - s.y == 0.0
    ensures SourceVector(s, e, src).y == Side(RawLine(s, e), src)
  {
    var m := (e.y - s.y) / (e.x - s.x);
    assert m == 0.0;
    DenomNonZero(m, HorizontalSentinel, e.x - s.x, e.y - s.y);
    assert Foot(m, HorizontalSentinel, e, src).y == e.y;
  }

  /** For a sloped segment, the y-component of the source vector has the
      sign of the source's side of the raw line. */
  lemma FootSign(s: Vec, e: Vec, src: Vec)
    requires e.x - s.x != 0.0 && e.y - s.y != 0.0
    ensures SourceVector(s, e, src).y < 0.0 <==> Side(RawLine(s, e), src) < 0.0
  {
    var xDif := e.x - s.x;
    var yDif := e.y - s.y;
    var m := yDif / xDif;
    var mNorm := xDif / yDif;
    assert m * xDif == yDif;
    assert mNorm * yDif == xDif;
    MulInverse(m, mNorm, xDif, yDif);
    DenomNonZero(m, mNorm, xDif, yDif);
    var f := Foot(m, mNorm, e, src);
    assert SourceVector(s, e, src).y == src.y - f.y;
    SideAtEnd(s, e, src, m);
    FootAlgebra(m, mNorm, e, src);
    SignByPositiveFactor(src.y - f.y, Side(RawLine(s, e), src), mNorm * mNorm);
  }

  /** The raw side of a sloped wall, measured from its end point. */
  lemma SideAtEnd(s: Vec, e: Vec, src: Vec, m: real)
    requires e.x - s.x != 0.0 && m == (e.y - s.y) / (e.x - s.x)
    ensures Side(RawLine(s, e), src) == src.y - e.y - m * (src.x - e.x)
  {
    assert m * (e.x - s.x) == e.y - s.y;
  }

  lemma MulInverse(m: real, mNorm: real, xDif: real, yDif: real)
    requires xDif != 0.0 && yDif != 0.0
    requires m * xDif == yDif && mNorm * yDif == xDif
    ensures m * mNorm == 1.0
  {
    assert (m * mNorm) * (xDif * yDif) == (m * xDif) * (mNorm * yDif);
    assert xDif * yDif != 0.0;
  }

  /** The perpendicular foot, as real algebra: with `m * mNorm == 1`, the
      source's height above the foot times `mNorm^2 + 1` is `mNorm^2` times
      its height above the wall line. */
  lemma FootAlgebra(m: real, mNorm: real, e: Vec, src: Vec)
    requires m * mNorm == 1.0 && mNorm + m != 0.0
    ensures (src.y - Foot(m, mNorm, e, src).y) * (mNorm * mNorm + 1.0)
         == mNorm * mNorm * (src.y - e.y - m * (src.x - e.x))
  {
    var denom := mNorm + m;
    var f := Foot(m, mNorm, e, src);
    var X := f.x - e.x;
    assert f.x * denom == m * e.x - e.y + src.y + mNorm * src.x;
    assert X * denom == src.y - e.y + mNorm * (src.x - e.x);
    var k := mNorm * mNorm + 1.0;
    assert k == mNorm * denom;
    assert src.y - f.y == (src.y - e.y) - m * X;
    calc {
      (src.y - f.y) * k;
      (src.y - e.y) * k - m * X * (mNorm * denom);
      { assert m * X * (mNorm * denom) == (m * mNorm) * (X * denom); }
      (src.y - e.y) * k - (X * denom);
      (src.y - e.y) * (mNorm * mNorm) - mNorm * (src.x - e.x);
      { assert mNorm == mNorm * mNorm * m; }
      mNorm * mNorm * (src.y - e.y - m * (src.x - e.x));
    }
  }

  /** Multiplying by a positive factor keeps the sign. */
  lemma SignByPositiveFactor(u: real, v: real, q: real)
    requires q > 0.0 && u * (q + 1.0) == q * v
    ensures u < 0.0 <==> v < 0.0
  {
    if u < 0.0 { assert u * (q + 1.0) < 0.0; }
    if v < 0.0 { assert q * v < 0.0; }
  }

  /** Dividing a normal by its length gives a unit vector. */
  lemma UnitNormal(n: Vec, d: real)
    requires d > 0.0 && d * d == NormSq(n)
    ensures IsUnit(Scale(1.0 / d, n))
  {
    var k := 1.0 / d;
    assert k * d == 1.0;
    assert NormSq(Scale(k, n)) == (k * k) * NormSq(n);
    assert (k * k) * (d * d) == (k * d) * (k * d);
  }

  /** The unit normal as the original stores it: divided by `d` unless
      `d` is already 1. */
  function UnitOf(n: Vec, d: real): (u: Vec)
    requires d > 0.0 && d * d == NormSq(n)
    ensures IsUnit(u) && u == Scale(1.0 / d, n)
  {
    UnitNormal(n, d);
    if d != 1.0 then Vec(n.x / d, n.y / d) else n
  }

  /** `Wall.__init__` for a planar wall. `d` stands for the square root of
      the squared length of the oriented normal. */
  function MakeWall(s: Vec, e: Vec, src: Vec, absorb: Profile, d: real): (w: Wall)
    requires d > 0.0 && d * d == NormSq(OrientedLine(s, e, src).normal)
    ensures w.Planar? && w.start == s && w.end == e && w.absorb == absorb && w.d == d
    ensures Line(w.normal, w.c) == OrientedLine(s, e, src)
    ensures Side(Line(w.normal, w.c), src) >= 0.0
    ensures Side(Line(w.normal, w.c), s) == 0.0 && Side(Line(w.normal, w.c), e) == 0.0
    ensures IsUnit(w.unit) && w.unit == Scale(1.0 / d, w.normal)
  {
    var l := OrientedLine(s, e, src);
    Planar(s, e, absorb, l.normal, l.c, d, UnitOf(l.normal, d))
  }

  /** The coefficients of the oriented line: a vertical wall gets
      (+-1, 0, +-x0), any other wall +-(-dy/dx, 1, a*x0 + y0). */
  lemma OrientedLineCoefficients(s: Vec, e: Vec, src: Vec)
    ensures var l := OrientedLine(s, e, src);
      if e.x - s.x == 0.0 then
        l == Line(Vec(1.0, 0.0), s.x) || l == Line(Vec(-1.0, 0.0), -s.x)
      else
        var a := -((e.y - s.y) / (e.x - s.x));
        l == Line(Vec(a, 1.0), a * s.x + s.y) || l == Line(Vec(-a, -1.0), -(a * s.x + s.y))
  {
    var raw := RawLine(s, e);
    if e.x - s.x == 0.0 {
      assert raw == Line(Vec(1.0, 0.0), s.x);
      assert FlipLine(raw) == Line(Vec(-1.0, 0.0), -s.x);
    } else {
      var a := -((e.y - s.y) / (e.x - s.x));
      assert raw == Line(Vec(a, 1.0), a * s.x + s.y);
      assert FlipLine(raw) == Line(Vec(-a, -1.0), -(a * s.x + s.y));
    }
  }

  /** The squared length of every oriented normal is positive, so the
      square root `d` always exists and is positive. */
  lemma NormalNonZero(s: Vec, e: Vec, src: Vec)
    ensures NormSq(OrientedLine(s, e, src).normal) >= 1.0
  {
  }

  /** A wall as the original builds it: planar walls carry a positive `d`,
      a unit normal `unit == normal / d` and `d * d == |normal|^2`. */
  predicate WellFormed(w: Wall) {
    w.Planar? ==> w.d > 0.0 && w.d * w.d == NormSq(w.normal) && w.unit == Scale(1.0 / w.d, w.normal)
  }
}
